=== FILE: README.md ===
# Serial pointer bridge — Dafny model

`read_serial` turns a serial line into a mouse pointer. A microcontroller
sends one byte per movement: `'1'` right, `'2'` left, `'3'` up, `'4'` down.
The program registers a virtual pointer through the Linux uinput interface
(`setup_uinput`). It then reads the serial handle one byte at a time and
writes, for each movement byte, a relative-motion record of ±10 units
followed by a sync record (`move_cursor`). When a read returns 0 or -1, it
closes the uinput handle and then the serial handle.

This project models that core as pure functions over traces:

- `LinuxInput` holds the input-event records, the event types and codes the program uses (by name), and the mouse button's key code.
- `SerialProtocol` holds the byte protocol and the decoder, i.e. the `switch` of the read loop.
- `Trace` holds what the program does, in the order it does it:
  - records the device accepted;
  - diagnostics printed;
  - control calls made;
  - handles closed.
  Diagnostics from both output streams are merged in call order (see "## Left out").
- `Emitter` is `move_cursor`. The kernel's answers to successive writes are given as a list of outcomes (`WriteOutcomes`).
- `UinputSetup` is `setup_uinput`: the ordered registration calls and their failure paths. The kernel's answers are given as a `SetupEnv`.
- `ReadLoop` holds:
  - `Run`, the read loop for any per-byte handler;
  - `Loop`, the bridge's own loop, which is `Run` with `Step`;
  - `RunLoop`, a `while` implementation proved equal to `Run`.
  - A finite list of `read` results stands in for the serial line.
- `Session` is `main` after its argument checks: setup, loop, teardown and the returned status.

## Model

| member | source | states |
|---|---|---|
| SerialProtocol.Decode | read_serial.c:134-161 | 0 and `'\n'` are ignored, exactly; `'1'`–`'4'` are moves, exactly; every other byte is unrecognised and carries its own value; a move is on REL_X or REL_Y by ±MOVEMENT_SIZE |
| SerialProtocol.DecodeCodeOf | read_serial.c:4-5 | each direction's code decodes to a move on that direction's axis, by 10 units, with that direction's sign (right/left on X, up/down on Y) |
| SerialProtocol.DecodeMoveHasDirection | read_serial.c:143-158 | every decoded move comes from exactly one direction's code |
| SerialProtocol.DecodeSeparatesDirections | read_serial.c:143-158 | different directions never decode to the same move |
| Emitter.MoveCursor | read_serial.c:81-105 | returns 0 or -1; 0 exactly when both writes are accepted; the sync record is not attempted once the motion write fails |
| Emitter.MoveCursorDelivers | read_serial.c:88-104 | what reaches the device is a prefix of the motion+sync frame: all of it exactly when the result is 0, nothing when the motion write fails, and the motion record alone when only the sync write fails (it is not taken back); the diagnostics are exactly the motion-write report, the sync-write report, or none, matching the write that failed |
| ReadLoop.Step | read_serial.c:134-161 | one byte's handling: writes are attempted exactly for movement bytes; a non-movement byte delivers nothing and reports "wrong code" exactly when it is unrecognised; with every write accepted, a byte delivers exactly its movement's frame (none for a non-movement byte) |
| ReadLoop.StepReports | read_serial.c:134-161 | one byte's handling only writes records and prints reports; a non-movement byte delivers no records; with all writes accepted, frames are paired |
| ReadLoop.RunPendingIffAllBytes | read_serial.c:129-133 | the loop is still reading exactly when no read returned 0 or -1 |
| ReadLoop.Loop | read_serial.c:129-133 | the bridge's loop, with the decoder's handling of each byte, is still reading exactly when every read so far returned a byte |
| ReadLoop.RunLoop | read_serial.c:129-162 | the `while` loop, one iteration per read, computes exactly the outputs, stop reason and write count of the functional loop |
| ReadLoop.RunAppend | read_serial.c:129-162 | order preservation: running the reads `a ++ b`, where `a` has no 0/-1, reports `a`'s outputs followed by `b`'s outputs with the write outcomes that remain |
| ReadLoop.RunStopsAtFirst | read_serial.c:129-133 | the first 0 or -1 stops the loop; later reads are never acted on; -1 adds exactly one report and 0 adds nothing |
| ReadLoop.LoopReportsOnly | read_serial.c:129-162 | the loop only writes records and prints reports; every motion record that got through is followed by its sync record or by the sync-failure report |
| ReadLoop.FramesPairedWhenAccepted | read_serial.c:89-102 | with every write accepted, each motion record is immediately followed by its sync record |
| ReadLoop.MovementFramesLength | read_serial.c:96-98 | each movement's frame is two records |
| ReadLoop.AcceptedRecords | read_serial.c:134-161 | with every write accepted, the records delivered are the frames of the movement bytes, in order |
| ReadLoop.AcceptedDiagnostics | read_serial.c:159-160 | with every write accepted, the diagnostics are the "wrong code" reports of the unrecognised bytes, in order, each with its byte |
| ReadLoop.AcceptedCounts | read_serial.c:139-160 | with every write accepted, there are two records per movement byte; the trace is those records plus one report per unrecognised byte, and nothing else |
| ReadLoop.FailedWriteDoesNotStop | read_serial.c:145-146 | a failed motion write prints its report, uses one write, and the loop continues with the next read; the -1 of `move_cursor` is ignored |
| ReadLoop.FailedSyncDoesNotStop | read_serial.c:92-101 | a failed sync write after an accepted motion write leaves the motion record delivered, prints the sync report, uses two writes, and the loop continues with the next read; the -1 of `move_cursor` (called at :145) is ignored |
| UinputSetup.DeclarationsDeclarePointer | read_serial.c:48-56 | the declarations cover key and relative events, both axes, all 256 key codes and the mouse button, and are all declaration requests |
| UinputSetup.Register | read_serial.c:48-73 | after a successful open: the handle is returned exactly when the descriptor write and the creation request both succeed; a failed descriptor write is reported and no creation request follows; a refused creation is reported with its return code; the pause happens exactly on success; registration starts with the open, and neither writes records nor closes anything; the exact list of reports is stated by `RegisterReports` |
| UinputSetup.RegisterReports | read_serial.c:59-68 | after a successful open, registration prints exactly one report when the descriptor write fails (and nothing more), exactly one report carrying the return code when creation is refused, and nothing when the device is created |
| UinputSetup.RegisterOrdered | read_serial.c:48-73 | after a successful open: the descriptor is always written; every declaration comes before it, it comes before the creation request, and no creation request is made without it; every capability is declared |
| UinputSetup.Setup | read_serial.c:33-74 | the handle is returned exactly when open, descriptor write and create all succeed, and it is the opened descriptor; otherwise -1; "could not open" is printed exactly when the open fails; no request is issued on a failed open; a failed descriptor write is reported and no creation request follows; a refused creation is reported with its return code; the pause happens exactly when setup succeeds, and ends it; setup neither writes records nor closes anything; the exact list of reports is stated by `SetupReports` |
| UinputSetup.SetupReports | read_serial.c:38-68 | setup prints exactly one report for the step that failed (the open, the descriptor write, or the creation request with its return code) and nothing when the device is ready |
| UinputSetup.SetupOrdered | read_serial.c:48-65 | whatever the kernel answers, the setup calls are in registration order (declarations, then the descriptor write, then the creation request, which never comes without the write); once the open succeeds, every capability is declared and the descriptor is written |
| UinputSetup.SetupAsWritten | read_serial.c:38-41 | the open check as written: descriptor 0 is treated as failure, and any other result is used |
| UinputSetup.AsWrittenMissesOpenFailure | read_serial.c:38-63 | as written, an open returning -1 gets past the check: the requests are issued on -1, and the descriptor write is blamed instead of the open |
| UinputSetup.AsWrittenRejectsDescriptorZero | read_serial.c:38-41 | as written, a successful open on descriptor 0 is rejected and the corrected setup uses it; a defect of `setup_uinput` on its own, which `main` cannot reach (see Findings) |
| UinputSetup.AsWrittenAgreesElsewhere | read_serial.c:38-41 | for any descriptor above 0, the as-written and corrected setup behave identically |
| Session.Main | read_serial.c:123-168 | the status is 0 exactly when setup succeeded and the loop met end of stream, and -1 exactly when it met a read error; both end by closing uinput and then the serial handle; a failed setup closes only the serial handle, returns no defined status, and never closes uinput; while reading, nothing is closed; the run starts with setup's calls, unchanged |
| Session.MainReports | read_serial.c:123-168 | with the device set up, the records delivered are exactly the loop's and the diagnostics are setup's followed by the loop's; a failed setup delivers nothing, and its diagnostics are setup's followed by the setup failure report; every record comes after all of setup's calls, including the pause that ends a successful setup; between setup and teardown the run only writes records and prints reports; after a failed setup come only the failure report and the closing of the serial handle; a run that returns closes nothing before its two final closes. Diagnostics are in call order, with both output streams merged |
| Session.RegisteredBeforeRecords | read_serial.c:123-129 | before the first record is written, the run has declared every capability of the pointer, written the device descriptor and issued the creation request |

## Left out

- The argument check and the opening of the serial device (read_serial.c:113-121). The model starts with the serial handle open; both failures simply exit with 1.
- Struct layouts and the system calls themselves (`open`, `ioctl`, `write`, `read`, `close`). The trace records them as follows:
  - The uinput `open`, the declaration and creation `ioctl`s, the descriptor `write` and both `close`s appear as outputs.
  - An event `write` has no output of its own. An accepted write appears as the record it delivered (`Emit`); a refused write appears only as its report.
  - The answers the program acts on are inputs: `SetupEnv` holds what `open` returned, whether the descriptor write was accepted and what the creation request returned; `WriteOutcomes` holds whether each event write was accepted; the list of `ReadResult` holds what each `read` returned.
  - A read is not an output.
  - The program ignores the answers to the declaration `ioctl`s (read_serial.c:48-56) and to both `close`s: `teardown_uinput`'s result (read_serial.c:76-79, called at :165) and the serial `close` (read_serial.c:167). The model has no input for them.
- The device descriptor contents (name "simulated mouse", version 4, USB bus type) and the `memset` calls. They do not change behaviour.
- Output streams and buffering. The "wrong code", "error create" and "FATAL" messages go to buffered standard output through `printf` (read_serial.c:66, :124, :160); the others go to standard error through `perror`/`fprintf` (read_serial.c:39, :60-61, :93, :100, :131). The trace keeps every diagnostic in the order the program issues it. An observer watching the two streams can see them interleaved differently, so the order `MainReports` states between setup's and the loop's diagnostics is call order, not display order.
- The wording of messages, and `perror`'s errno text. Diagnostics are named by cause; only the "wrong code" report carries data, the byte's value.
- Event timestamps, which the kernel fills in.
- `sleep(1)` is modelled as a `Pause` output, not as time.
- `assert(ufile >= 0)` in `move_cursor` is not modelled: the loop only runs with a descriptor that setup returned, which is non-negative by `Setup`'s contract.
- The uinput descriptor leaked on setup's failure paths after a successful open: the program never closes it, so the model never emits `Close(Uinput)` there.
- Session.Main: on a failed setup, `main` returns the unassigned `ret`. This is modelled as the `Unspecified` exit, not as any number.
- Session.Main: runs the corrected open check (`Setup`), not the check as written (`SetupAsWritten`). When `open` returns -1, the real program goes on to issue the requests on -1, and it reports the descriptor write, not the open, before giving up (`AsWrittenMissesOpenFailure`). `main` still reaches the same `Unspecified` exit in that case, because the descriptor write on -1 fails. The model reports the open failure instead.
- The stream of reads is finite. A loop that has not yet met 0 or -1 is reported as `Pending`/`Running` with no teardown, rather than as non-termination.
- Write outcomes past the end of the given list count as accepted.
- The terminal configuration (`stty`) in the header comment, and the Linux input stack's processing of the records after they are written.

## Findings

| source | as written | input that shows it | evidently intended | confidence | as-written member | corrected member |
|---|---|---|---|---|---|---|
| read_serial.c:38 | `if(!(ufile = open(...)))` treats only descriptor 0 as failure, so the -1 that `open` returns on failure passes the check | `open` returns -1 (no permission on the uinput control file): the check passes, the control requests and the descriptor write go to -1, and the descriptor write is blamed instead of the open | failure is `open(...) == -1` (or `< 0`), as the `open` manual page specifies | not executed | UinputSetup.AsWrittenMissesOpenFailure | UinputSetup.Setup |

The same check also refuses a successful open that returns descriptor 0 (`UinputSetup.AsWrittenRejectsDescriptorZero`). That is a defect of `setup_uinput` taken on its own, and `main` cannot reach it. `main` opens the serial device first (read_serial.c:118), and `open` returns the lowest free descriptor, so the uinput handle is never 0 when the serial handle is open. Only the -1 case above affects the program.

=== FILE: emitter.dfy ===
/**
  `move_cursor`: report one movement to the uinput device as a motion
  record followed by a sync record, stopping at the first failed write.
 */
module Emitter {
  import opened LinuxInput
  import opened Trace

  /** What the kernel answers to the successive writes on the uinput handle:
      `true` for a write it accepted, `false` for one that returned -1.
      Writes past the end of the list are accepted. */
  type WriteOutcomes = seq<bool>

  /** Does the next write succeed? */
  predicate Accepts(w: WriteOutcomes) {
    |w| == 0 || w[0]
  }

  /** The outcomes left after `n` writes. */
  function Consume(w: WriteOutcomes, n: nat): (r: WriteOutcomes)
    ensures |r| == if n <= |w| then |w| - n else 0
  {
    if n <= |w| then w[n..] else []
  }

  lemma ConsumeTwice(w: WriteOutcomes, m: nat, n: nat)
    ensures Consume(Consume(w, m), n) == Consume(w, m + n)
  {
  }

  /** Every write succeeds. */
  predicate AllAccepted(w: WriteOutcomes) {
    forall i :: 0 <= i < |w| ==> w[i]
  }

  /** What one emission did: its outputs, its return value (0 or -1), and
      how many writes it attempted. */
  datatype Emission = Emission(out: seq<Output>, status: int, used: nat)

  /** Writes the motion record, then, only if that succeeded, the sync
      record; each failure is reported and ends the emission with -1. */
  function MoveCursor(code: EventCode, value: int, w: WriteOutcomes): (e: Emission)
    ensures e.status == 0 || e.status == -1
    ensures e.status == 0 <==> Accepts(w) && Accepts(Consume(w, 1))
    ensures !Accepts(w) ==> e.used == 1
    ensures Accepts(w) ==> e.used == 2
  {
    if !Accepts(w) then
      Emission([Say(MotionWriteFailed)], -1, 1)
    else if !Accepts(Consume(w, 1)) then
      Emission([Emit(Motion(code, value)), Say(SyncWriteFailed)], -1, 2)
    else
      Emission([Emit(Motion(code, value)), Emit(SynReport)], 0, 2)
  }

  /** What reaches the device is always a prefix of the movement's frame: all
      of it exactly when the emission returns 0, nothing when the first write
      fails, and the motion record alone when only the sync write fails (it
      is not taken back). A failed emission prints the report of the write
      that failed; a motion record that got through is followed by its sync
      record or by that report. */
  lemma MoveCursorDelivers(code: EventCode, value: int, w: WriteOutcomes)
    ensures var e := MoveCursor(code, value, w);
      && Delivered(e.out) <= Frame(code, value)
      && (e.status == 0 <==> Delivered(e.out) == Frame(code, value))
      && (!Accepts(w) ==> Delivered(e.out) == [])
      && (Accepts(w) ==> |Delivered(e.out)| >= 1 && Delivered(e.out)[0] == Motion(code, value))
      && Diagnostics(e.out)
         == (if !Accepts(w) then [MotionWriteFailed]
             else if e.status != 0 then [SyncWriteFailed]
             else [])
      && MotionsClosed(e.out) && OnlyReports(e.out)
      && (e.status == 0 ==> FramesPaired(e.out))
  {
    var e := MoveCursor(code, value, w);
    OneOutput(e.out[0]);
    if Accepts(w) {
      assert e.out == [e.out[0]] + [e.out[1]];
      OneOutput(e.out[1]);
      DeliveredAppend([e.out[0]], [e.out[1]]);
      DiagnosticsAppend([e.out[0]], [e.out[1]]);
    }
  }
}

=== FILE: linux_input.dfy ===
/**
  The records of the Linux input subsystem that the pointer bridge writes to
  its uinput handle. Only the types and codes the bridge uses appear here;
  they are named, not numbered, since the model never encodes a record.
 */
module LinuxInput {

  /** The event types the bridge uses: synchronisation (0), keys (1) and
      relative motion (2) in the kernel's numbering. */
  datatype EventType = EV_SYN | EV_KEY | EV_REL

  /** The event codes the bridge writes: the sync report (0), and the two
      relative axes (0 and 1). */
  datatype EventCode = SYN_REPORT | REL_X | REL_Y

  /** The key code of the primary mouse button. */
  const BTN_MOUSE: nat := 0x110

  /** One input event record (the kernel fills in the timestamp). */
  datatype InputEvent = InputEvent(evType: EventType, code: EventCode, value: int)

  /** A relative motion on one axis. */
  function Motion(code: EventCode, value: int): InputEvent {
    InputEvent(EV_REL, code, value)
  }

  /** The marker that closes a frame of events. */
  const SynReport: InputEvent := InputEvent(EV_SYN, SYN_REPORT, 0)

  predicate IsMotion(e: InputEvent) {
    e.evType == EV_REL
  }

  /** The complete frame that reports one movement to event consumers:
      the motion record, then the synchronisation marker. */
  function Frame(code: EventCode, value: int): seq<InputEvent> {
    [Motion(code, value), SynReport]
  }
}

=== FILE: read_loop.dfy ===
/**
  The read loop of the bridge: one byte per `read`, decoded and reported,
  until a read returns 0 (end of stream) or -1 (error).
 */
module ReadLoop {
  import opened LinuxInput
  import opened SerialProtocol
  import opened Trace
  import opened Emitter

  /** What one `read` of one byte from the serial handle returns. */
  datatype ReadResult =
    | Got(b: byte)   // 1: a byte arrived
    | EndOfFile      // 0
    | ReadError      // -1

  /** How the loop stands after the reads it was given: still reading
      (no 0 or -1 among them), stopped at end of stream, or stopped at an
      error. */
  datatype Stop = Pending | EndOfStream | Failed

  /** Outputs of the loop, how it stopped, and how many writes it attempted. */
  datatype LoopResult = LoopResult(out: seq<Output>, stop: Stop, used: nat)

  /** Every read delivered a byte. */
  predicate AllBytes(input: seq<ReadResult>) {
    |input| == 0 || (input[0].Got? && AllBytes(input[1..]))
  }

  /** The reads that deliver the bytes of `s`, in order. */
  function Bytes(s: seq<byte>): (r: seq<ReadResult>)
    ensures |r| == |s| && AllBytes(r)
  {
    if |s| == 0 then [] else [Got(s[0])] + Bytes(s[1..])
  }

  /** The records one received byte is due to deliver: the frame of its
      movement, if it is one. */
  function FrameOf(b: byte): seq<InputEvent> {
    if Decode(b).Move? then Frame(Decode(b).code, Decode(b).value) else []
  }

  /** The report one received byte is due to print: the wrong-code report,
      if it is not recognised. */
  function WrongCodeOf(b: byte): seq<Diagnostic> {
    if Decode(b).Unrecognised? then [WrongCode(b)] else []
  }

  /** One pass of the loop body for a received byte: the decoded action and
      what reporting it printed and wrote. Only a move writes; the status of
      the emission is not looked at by the loop. */
  function Step(b: byte, w: WriteOutcomes): (e: Emission)
    ensures Decode(b).Move? <==> e.used > 0
    ensures !Decode(b).Move? ==> Delivered(e.out) == [] && Diagnostics(e.out) == WrongCodeOf(b)
    ensures AllAccepted(w) ==> Delivered(e.out) == FrameOf(b) && Diagnostics(e.out) == WrongCodeOf(b)
  {
    match Decode(b)
    case Move(code, value) =>
      MoveCursorDelivers(code, value, w);
      MoveCursor(code, value, w)
    case Ignore => Emission([], 0, 0)
    case Unrecognised(x) => Emission([Say(WrongCode(x))], 0, 0)
  }

  /** One byte's outputs are reports only, and every motion record that got
      through is closed; with every write accepted, a movement's records come
      as a complete frame. */
  lemma StepReports(b: byte, w: WriteOutcomes)
    ensures var e := Step(b, w);
      && OnlyReports(e.out) && MotionsClosed(e.out)
      && (AllAccepted(w) ==> FramesPaired(e.out))
  {
    var a := Decode(b);
    if a.Move? {
      MoveCursorDelivers(a.code, a.value, w);
    }
  }

  /** A way of handling one received byte: what it reports, and how many
      writes it attempts, given the outcomes of the writes still to come. */
  type ByteHandler = (byte, WriteOutcomes) -> Emission

  /** `r` is what running some reads reports, writes and stops with, when
      the first of them reported `out` and attempted `used` writes and the
      rest of them gave `rest`. */
  predicate Continues(r: LoopResult, out: seq<Output>, used: nat, rest: LoopResult) {
    r == LoopResult(out + rest.out, rest.stop, used + rest.used)
  }

  /** The shape of the read loop, whatever is done with each byte: read
      after read, a 0 ends it cleanly, a -1 ends it with a report, and
      either way later reads are never made. */
  function Run(step: ByteHandler, input: seq<ReadResult>, w: WriteOutcomes): (r: LoopResult)
    decreases |input|
  {
    if |input| == 0 then LoopResult([], Pending, 0)
    else
      match input[0]
      case EndOfFile => LoopResult([], EndOfStream, 0)
      case ReadError => LoopResult([Say(ReadFailed)], Failed, 0)
      case Got(b) =>
        var e := step(b, w);
        var rest := Run(step, input[1..], Consume(w, e.used));
        LoopResult(e.out + rest.out, rest.stop, e.used + rest.used)
  }

  /** The read loop of the bridge: the loop shape with the decoder's step.
      It is still reading exactly when every read so far returned a byte. */
  function Loop(input: seq<ReadResult>, w: WriteOutcomes): (r: LoopResult)
    ensures r.stop == Pending <==> AllBytes(input)
  {
    RunPendingIffAllBytes(Step, input, w);
    Run(Step, input, w)
  }

  /** The loop is still reading after the given reads exactly when none
      of them returned 0 or -1. */
  lemma {:induction false} RunPendingIffAllBytes(step: ByteHandler, input: seq<ReadResult>, w: WriteOutcomes)
    ensures Run(step, input, w).stop == Pending <==> AllBytes(input)
    decreases |input|
  {
    if |input| > 0 && input[0].Got? {
      RunPendingIffAllBytes(step, input[1..], Consume(w, step(input[0].b, w).used));
    }
  }

  /** One iteration on a received byte, then the rest of the loop with the
      writes that remain. */
  lemma RunOnByte(step: ByteHandler, input: seq<ReadResult>, w: WriteOutcomes)
    requires |input| > 0 && input[0].Got?
    ensures var e := step(input[0].b, w);
      Continues(Run(step, input, w), e.out, e.used, Run(step, input[1..], Consume(w, e.used)))
  {
  }

  /** A read of 0 or -1 ends the loop at once. */
  lemma RunOnStop(step: ByteHandler, input: seq<ReadResult>, w: WriteOutcomes)
    requires |input| > 0 && !input[0].Got?
    ensures Run(step, input, w)
         == if input[0] == EndOfFile then LoopResult([], EndOfStream, 0)
            else LoopResult([Say(ReadFailed)], Failed, 0)
  {
  }

  /** The loop as a loop: the same reads and writes, one iteration per
      read. With `Step` as the handler this is the read loop of the bridge. */
  method RunLoop(step: ByteHandler, input: seq<ReadResult>, w: WriteOutcomes) returns (out: seq<Output>, stop: Stop, used: nat)
    ensures LoopResult(out, stop, used) == Run(step, input, w)
  {
    ghost var whole := Run(step, input, w);
    out, stop, used := [], Pending, 0;
    var rest := input;
    RunStart(step, input, w);
    while |rest| > 0 && rest[0].Got?
      invariant Continues(whole, out, used, Run(step, rest, Consume(w, used)))
      decreases |rest|
    {
      var e := step(rest[0].b, Consume(w, used));
      RunOnByte(step, rest, Consume(w, used));
      ConsumeTwice(w, used, e.used);
      ContinuesTrans(whole, out, used, Run(step, rest, Consume(w, used)),
                     e.out, e.used, Run(step, rest[1..], Consume(w, used + e.used)));
      out := out + e.out;
      used := used + e.used;
      rest := rest[1..];
    }
    LoopExit(step, whole, rest, w, out, used);
    if |rest| > 0 {
      if rest[0] == ReadError {
        out := out + [Say(ReadFailed)];
        stop := Failed;
      } else {
        stop := EndOfStream;
      }
    }
  }

  /** The loop invariant of `RunLoop` holds before the first read. */
  lemma RunStart(step: ByteHandler, input: seq<ReadResult>, w: WriteOutcomes)
    ensures Continues(Run(step, input, w), [], 0, Run(step, input, Consume(w, 0)))
  {
    assert Consume(w, 0) == w;
    assert [] + Run(step, input, w).out == Run(step, input, w).out;
  }

  /** Continuing a continuation. */
  lemma ContinuesTrans(r: LoopResult, out1: seq<Output>, used1: nat, mid: LoopResult,
                       out2: seq<Output>, used2: nat, rest: LoopResult)
    requires Continues(r, out1, used1, mid) && Continues(mid, out2, used2, rest)
    ensures Continues(r, out1 + out2, used1 + used2, rest)
  {
    assert out1 + (out2 + rest.out) == (out1 + out2) + rest.out;
  }

  /** Under the invariant of `RunLoop`, once no byte is left to handle the
      whole run is what has been gathered, closed as the last read says. */
  lemma LoopExit(step: ByteHandler, whole: LoopResult, rest: seq<ReadResult>, w: WriteOutcomes,
                 out: seq<Output>, used: nat)
    requires |rest| == 0 || !rest[0].Got?
    requires Continues(whole, out, used, Run(step, rest, Consume(w, used)))
    ensures |rest| == 0 ==> whole == LoopResult(out, Pending, used)
    ensures |rest| > 0 && rest[0] == EndOfFile ==> whole == LoopResult(out, EndOfStream, used)
    ensures |rest| > 0 && rest[0] == ReadError ==> whole == LoopResult(out + [Say(ReadFailed)], Failed, used)
  {
    assert out + [] == out;
    if |rest| > 0 {
      RunOnStop(step, rest, Consume(w, used));
    }
  }

  /** Order preservation: reading `a` and then `b` reports what reading `a`
      reports, followed by what reading `b` reports with the writes that
      remain, provided nothing in `a` stops the loop. */
  lemma {:induction false} RunAppend(step: ByteHandler, a: seq<ReadResult>, b: seq<ReadResult>, w: WriteOutcomes)
    requires AllBytes(a)
    ensures var x := Run(step, a, w);
      Continues(Run(step, a + b, w), x.out, x.used, Run(step, b, Consume(w, x.used)))
    decreases |a|
  {
    if |a| == 0 {
      assert a + b == b;
    } else {
      var e := step(a[0].b, w);
      var w1 := Consume(w, e.used);
      var x := Run(step, a[1..], w1);
      var y := Run(step, b, Consume(w1, x.used));
      RunOnByte(step, a, w);
      RunOnFirstOfAppend(step, a, b, w);
      RunAppend(step, a[1..], b, w1);
      ConsumeTwice(w, e.used, x.used);
      ContinuesTrans(Run(step, a + b, w), e.out, e.used, Run(step, a[1..] + b, w1), x.out, x.used, y);
    }
  }

  /** `RunOnByte` for reads that start with those of `a`. */
  lemma RunOnFirstOfAppend(step: ByteHandler, a: seq<ReadResult>, b: seq<ReadResult>, w: WriteOutcomes)
    requires |a| > 0 && a[0].Got?
    ensures var e := step(a[0].b, w);
      Continues(Run(step, a + b, w), e.out, e.used, Run(step, a[1..] + b, Consume(w, e.used)))
  {
    assert (a + b)[0] == a[0] && (a + b)[1..] == a[1..] + b;
    RunOnByte(step, a + b, w);
  }

  /** The first 0 or -1 ends the loop: what follows it is never read, and
      a -1 adds exactly one report. */
  lemma RunStopsAtFirst(step: ByteHandler, a: seq<ReadResult>, last: ReadResult, b: seq<ReadResult>, w: WriteOutcomes)
    requires AllBytes(a) && !last.Got?
    ensures Run(step, a + [last] + b, w).stop == (if last == EndOfFile then EndOfStream else Failed)
    ensures Run(step, a + [last] + b, w).out
         == Run(step, a, w).out + (if last == ReadError then [Say(ReadFailed)] else [])
    ensures Run(step, a + [last] + b, w).used == Run(step, a, w).used
  {
    var rest := [last] + b;
    var t := a + [last] + b;
    assert t == a + rest && t[|a|..] == rest;
    RunAppend(step, a, rest, w);
    var x := Run(step, a, w);
    LoopExit(step, Run(step, t, w), rest, w, x.out, x.used);
  }

  /** The loop only writes event records and prints diagnostics, and every
      motion record it gets through is followed by its sync record or by
      the report that the sync write failed. */
  lemma {:induction false} LoopReportsOnly(input: seq<ReadResult>, w: WriteOutcomes)
    ensures OnlyReports(Loop(input, w).out)
    ensures MotionsClosed(Loop(input, w).out)
    decreases |input|
  {
    if |input| > 0 && input[0].Got? {
      var e := Step(input[0].b, w);
      var rest := Loop(input[1..], Consume(w, e.used));
      RunOnByte(Step, input, w);
      StepReports(input[0].b, w);
      LoopReportsOnly(input[1..], Consume(w, e.used));
      OnlyReportsAppend(e.out, rest.out);
      MotionsClosedAppend(e.out, rest.out);
    }
  }

  /** With every write accepted, each motion record is followed at once by
      its sync record. */
  lemma {:induction false} FramesPairedWhenAccepted(input: seq<ReadResult>, w: WriteOutcomes)
    requires AllAccepted(w)
    ensures FramesPaired(Loop(input, w).out)
    decreases |input|
  {
    if |input| > 0 && input[0].Got? {
      var e := Step(input[0].b, w);
      RunOnByte(Step, input, w);
      StepReports(input[0].b, w);
      FramesPairedWhenAccepted(input[1..], Consume(w, e.used));
      FramesPairedAppend(e.out, Loop(input[1..], Consume(w, e.used)).out);
    }
  }

  /** The number of movement bytes in `s`. */
  function MoveCount(s: seq<byte>): nat {
    if |s| == 0 then 0 else (if IsMovementByte(s[0]) then 1 else 0) + MoveCount(s[1..])
  }

  /** The reports due for the unrecognised bytes of `s`, in order. */
  function WrongCodes(s: seq<byte>): seq<Diagnostic> {
    if |s| == 0 then [] else WrongCodeOf(s[0]) + WrongCodes(s[1..])
  }

  /** The frames due for the movement bytes of `s`, in order. */
  function MovementFrames(s: seq<byte>): seq<InputEvent> {
    if |s| == 0 then [] else FrameOf(s[0]) + MovementFrames(s[1..])
  }

  /** Two records per movement byte. */
  lemma {:induction false} MovementFramesLength(s: seq<byte>)
    ensures |MovementFrames(s)| == 2 * MoveCount(s)
    decreases |s|
  {
    if |s| > 0 {
      MovementFramesLength(s[1..]);
    }
  }

  /** With every write accepted, a stream of bytes delivers the frame of
      each movement byte, in order, and nothing else. */
  lemma {:induction false} AcceptedRecords(s: seq<byte>, w: WriteOutcomes)
    requires AllAccepted(w)
    ensures Delivered(Loop(Bytes(s), w).out) == MovementFrames(s)
    decreases |s|
  {
    if |s| > 0 {
      var input := Bytes(s);
      assert input[0] == Got(s[0]) && input[1..] == Bytes(s[1..]);
      var e := Step(s[0], w);
      RunOnByte(Step, input, w);
      AcceptedRecords(s[1..], Consume(w, e.used));
      DeliveredAppend(e.out, Loop(Bytes(s[1..]), Consume(w, e.used)).out);
    }
  }

  /** With every write accepted, the only diagnostics a stream of bytes
      prints are the wrong-code reports of its unrecognised bytes, in
      order. */
  lemma {:induction false} AcceptedDiagnostics(s: seq<byte>, w: WriteOutcomes)
    requires AllAccepted(w)
    ensures Diagnostics(Loop(Bytes(s), w).out) == WrongCodes(s)
    decreases |s|
  {
    if |s| > 0 {
      var input := Bytes(s);
      assert input[0] == Got(s[0]) && input[1..] == Bytes(s[1..]);
      var e := Step(s[0], w);
      RunOnByte(Step, input, w);
      AcceptedDiagnostics(s[1..], Consume(w, e.used));
      DiagnosticsAppend(e.out, Loop(Bytes(s[1..]), Consume(w, e.used)).out);
    }
  }

  /** With every write accepted, a stream of bytes produces two records per
      movement byte and one report per unrecognised byte, and nothing else. */
  lemma AcceptedCounts(s: seq<byte>, w: WriteOutcomes)
    requires AllAccepted(w)
    ensures |Delivered(Loop(Bytes(s), w).out)| == 2 * MoveCount(s)
    ensures |Loop(Bytes(s), w).out| == 2 * MoveCount(s) + |WrongCodes(s)|
  {
    AcceptedRecords(s, w);
    AcceptedDiagnostics(s, w);
    MovementFramesLength(s);
    LoopReportsOnly(Bytes(s), w);
    ReportsCount(Loop(Bytes(s), w).out);
  }

  /** A failed motion write is reported and the loop reads on, as though the
      emission had not returned -1: one write is spent and the rest of the
      stream is handled as usual. */
  lemma FailedWriteDoesNotStop(b: byte, rest: seq<ReadResult>, w: WriteOutcomes)
    requires Decode(b).Move? && !Accepts(w)
    ensures Continues(Loop([Got(b)] + rest, w), [Say(MotionWriteFailed)], 1, Loop(rest, Consume(w, 1)))
  {
    assert ([Got(b)] + rest)[1..] == rest;
  }

  /** A failed sync write is reported and the loop reads on: the motion
      record that got through stays delivered, two writes are spent and the
      rest of the stream is handled as usual. */
  lemma FailedSyncDoesNotStop(b: byte, rest: seq<ReadResult>, w: WriteOutcomes)
    requires Decode(b).Move? && Accepts(w) && !Accepts(Consume(w, 1))
    ensures Continues(Loop([Got(b)] + rest, w),
                      [Emit(Motion(Decode(b).code, Decode(b).value)), Say(SyncWriteFailed)], 2,
                      Loop(rest, Consume(w, 2)))
  {
    assert ([Got(b)] + rest)[1..] == rest;
  }
}

=== FILE: serial_protocol.dfy ===
/**
  The one-byte motion codes sent by the microcontroller over the serial line,
  and the decoder that turns each byte into an action for the pointer.
 */
module SerialProtocol {
  import opened LinuxInput

  /** What one `read` of a single `unsigned char` delivers. */
  type byte = x: int | 0 <= x < 256

  /** The distance, in pointer units, of every movement. */
  const MOVEMENT_SIZE: int := 10

  const NUL: byte := 0
  const NEWLINE: byte := '\n' as int

  /** The four directions of the protocol: 1 right, 2 left, 3 up, 4 down. */
  datatype Direction = Right | Left | Up | Down

  /** The byte the sender uses for each direction. */
  function CodeOf(d: Direction): byte {
    match d
    case Right => '1' as int
    case Left => '2' as int
    case Up => '3' as int
    case Down => '4' as int
  }

  /** The relative axis each direction moves along. */
  function AxisOf(d: Direction): EventCode {
    if d == Right || d == Left then REL_X else REL_Y
  }

  /** The sign of each direction's displacement on its axis. */
  function SignOf(d: Direction): int {
    if d == Right || d == Up then 1 else -1
  }

  /** The bytes that request a movement. */
  predicate IsMovementByte(b: byte) {
    '1' as int <= b <= '4' as int
  }

  /** The decoder's three outcomes: a relative move of a given axis code and
      signed value, a silently ignored filler byte, or an unrecognised code. */
  datatype Action =
    | Move(code: EventCode, value: int)
    | Ignore
    | Unrecognised(received: byte)

  /** The `switch` of the read loop: which action one received byte asks for. */
  function Decode(b: byte): (a: Action)
    ensures a.Ignore? <==> b == NUL || b == NEWLINE
    ensures a.Move? <==> IsMovementByte(b)
    ensures a.Unrecognised? <==> !IsMovementByte(b) && b != NUL && b != NEWLINE
    ensures a.Unrecognised? ==> a.received == b
    ensures a.Move? ==> (a.code == REL_X || a.code == REL_Y)
    ensures a.Move? ==> (a.value == MOVEMENT_SIZE || a.value == -MOVEMENT_SIZE)
  {
    if b == NUL || b == NEWLINE then Ignore
    else if b == '1' as int then Move(REL_X, MOVEMENT_SIZE)
    else if b == '2' as int then Move(REL_X, -MOVEMENT_SIZE)
    else if b == '3' as int then Move(REL_Y, MOVEMENT_SIZE)
    else if b == '4' as int then Move(REL_Y, -MOVEMENT_SIZE)
    else Unrecognised(b)
  }

  /** Decoding the code of a direction moves the pointer along that
      direction's axis, by the fixed distance, with that direction's sign. */
  lemma DecodeCodeOf(d: Direction)
    ensures Decode(CodeOf(d)) == Move(AxisOf(d), SignOf(d) * MOVEMENT_SIZE)
  {
  }

  /** Every movement the decoder produces is the movement of exactly one
      direction whose code is the received byte. */
  lemma DecodeMoveHasDirection(b: byte)
    requires Decode(b).Move?
    ensures exists d :: CodeOf(d) == b && Decode(b) == Move(AxisOf(d), SignOf(d) * MOVEMENT_SIZE)
    ensures forall d1, d2 :: CodeOf(d1) == b && CodeOf(d2) == b ==> d1 == d2
  {
    var d :=
      if b == '1' as int then Right
      else if b == '2' as int then Left
      else if b == '3' as int then Up
      else Down;
    assert CodeOf(d) == b;
  }

  /** Different directions never decode to the same movement. */
  lemma DecodeSeparatesDirections(d1: Direction, d2: Direction)
    requires d1 != d2
    ensures Decode(CodeOf(d1)) != Decode(CodeOf(d2))
  {
    DecodeCodeOf(d1);
    DecodeCodeOf(d2);
  }
}

=== FILE: session.dfy ===
/**
  The program after its argument checks: the serial handle is open, the
  virtual pointer is set up, the read loop runs, and teardown closes the
  uinput handle and then the serial handle.
 */
module Session {
  import opened Trace
  import opened Emitter
  import opened UinputSetup
  import opened ReadLoop

  /** How the program stands at the end of the given reads: returned with
      a status, returned with no defined status, or still reading. */
  datatype Exit = Returned(status: int) | Unspecified | Running

  datatype Execution = Execution(out: seq<Output>, exit: Exit)

  /** Closes the uinput handle, then the serial handle. */
  const Teardown: seq<Output> := [Close(Uinput), Close(Serial)]

  /** Setup, loop and teardown. A failed setup closes only the serial
      handle and returns a status that was never assigned. The loop's exit
      status is the last read's return value: 0 at end of stream, -1 on
      error. */
  function Main(env: SetupEnv, input: seq<ReadResult>, w: WriteOutcomes): (r: Execution)
    ensures r.exit == Returned(0) <==> Setup(env).ufile >= 0 && !AllBytes(input) && Loop(input, w).stop == EndOfStream
    ensures r.exit == Returned(-1) <==> Setup(env).ufile >= 0 && Loop(input, w).stop == Failed
    ensures r.exit.Returned? ==> |r.out| >= 2 && r.out[|r.out| - 2..] == Teardown
    ensures r.exit == Unspecified <==> Setup(env).ufile < 0
    ensures r.exit == Unspecified ==> |r.out| > 0 && r.out[|r.out| - 1] == Close(Serial) && Close(Uinput) !in r.out
    ensures r.exit == Running ==> forall i :: 0 <= i < |r.out| ==> !r.out[i].Close?
    ensures Setup(env).out <= r.out
  {
    var s := Setup(env);
    if s.ufile < 0 then
      Execution(s.out + [Say(SetupFailed), Close(Serial)], Unspecified)
    else
      var l := Loop(input, w);
      LoopReportsOnly(input, w);
      match l.stop
      case Pending => Execution(s.out + l.out, Running)
      case EndOfStream => Execution(s.out + l.out + Teardown, Returned(0))
      case Failed => Execution(s.out + l.out + Teardown, Returned(-1))
  }

  /** A trace assembled from setup calls that end with the pause, the
      loop's reports, and a tail of closes: records come only from the loop
      and only after all of setup, and nothing is closed before the tail. */
  lemma AfterSetup(s: seq<Output>, l: seq<Output>, tail: seq<Output>)
    requires |s| > 0 && s[|s| - 1] == Pause
    requires forall i :: 0 <= i < |s| ==> !s[i].Emit? && !s[i].Close?
    requires OnlyReports(l)
    requires forall i :: 0 <= i < |tail| ==> tail[i].Close?
    ensures Delivered(s + l + tail) == Delivered(l)
    ensures Diagnostics(s + l + tail) == Diagnostics(s) + Diagnostics(l)
    ensures RecordsAfterPause(s + l + tail)
    ensures RecordsAfter(s + l + tail, s)
    ensures forall i :: 0 <= i < |s| + |l| ==> !(s + l + tail)[i].Close?
    ensures (s + l + tail)[|s|..|s| + |l|] == l
  {
    var t := s + l + tail;
    NoRecords(s);
    NoRecords(tail);
    NoDiagnostics(tail);
    DeliveredAppend(s + l, tail);
    DeliveredAppend(s, l);
    DiagnosticsAppend(s + l, tail);
    DiagnosticsAppend(s, l);
    forall i | 0 <= i < |t| && t[i].Emit?
      ensures Pause in t[..i] && s <= t[..i]
    {
      assert i >= |s| by {
        assert forall j :: 0 <= j < |s| ==> t[j] == s[j];
      }
      assert t[..i][|s| - 1] == Pause;
      assert t[..i][..|s|] == s;
    }
  }

  /** A failed setup followed by its report and the closing of the serial
      handle delivers no record. */
  lemma AfterFailedSetup(s: seq<Output>)
    requires forall i :: 0 <= i < |s| ==> !s[i].Emit? && !s[i].Close?
    ensures Delivered(s + [Say(SetupFailed), Close(Serial)]) == []
    ensures Diagnostics(s + [Say(SetupFailed), Close(Serial)]) == Diagnostics(s) + [SetupFailed]
    ensures RecordsAfterPause(s + [Say(SetupFailed), Close(Serial)])
    ensures RecordsAfter(s + [Say(SetupFailed), Close(Serial)], s)
  {
    var tail := [Say(SetupFailed), Close(Serial)];
    assert tail == [Say(SetupFailed)] + [Close(Serial)];
    NoEmitAppend(s, tail);
    NoRecords(s + tail);
    NothingBeforePause(s + tail);
    NothingBefore(s + tail, s);
    OneOutput(Say(SetupFailed));
    OneOutput(Close(Serial));
    DiagnosticsAppend([Say(SetupFailed)], [Close(Serial)]);
    DiagnosticsAppend(s, tail);
  }

  /** No event record in either part, none in the whole. */
  lemma NoEmitAppend(a: seq<Output>, b: seq<Output>)
    requires forall i :: 0 <= i < |a| ==> !a[i].Emit?
    requires forall i :: 0 <= i < |b| ==> !b[i].Emit?
    ensures forall i :: 0 <= i < |a + b| ==> !(a + b)[i].Emit?
  {
  }

  /** Where the reports of a run come from: with the device set up, the
      records delivered are exactly the loop's, and the diagnostics are
      setup's followed by the loop's; a failed setup delivers nothing and
      ends with the setup failure report. No record is written before all
      of setup's calls, creation and pause included; between setup and
      teardown the run only writes records and prints reports; and a run
      that returns closes nothing before its teardown. */
  lemma MainReports(env: SetupEnv, input: seq<ReadResult>, w: WriteOutcomes)
    ensures var r := Main(env, input, w);
      Setup(env).ufile >= 0 ==>
        && Delivered(r.out) == Delivered(Loop(input, w).out)
        && Diagnostics(r.out) == Diagnostics(Setup(env).out) + Diagnostics(Loop(input, w).out)
    ensures var r := Main(env, input, w);
      Setup(env).ufile < 0 ==>
        Delivered(r.out) == [] && Diagnostics(r.out) == Diagnostics(Setup(env).out) + [SetupFailed]
    ensures RecordsAfterPause(Main(env, input, w).out)
    ensures RecordsAfter(Main(env, input, w).out, Setup(env).out)
    ensures var r := Main(env, input, w);
      r.exit.Returned? ==> forall i :: 0 <= i < |r.out| - 2 ==> !r.out[i].Close?
    ensures var r := Main(env, input, w);
      var k := |Setup(env).out|;
      var e := if r.exit.Returned? then |r.out| - 2 else |r.out|;
      Setup(env).ufile >= 0 ==> k <= e && OnlyReports(r.out[k..e])
    ensures var r := Main(env, input, w);
      Setup(env).ufile < 0 ==> r.out[|Setup(env).out|..] == [Say(SetupFailed), Close(Serial)]
  {
    var s := Setup(env);
    var r := Main(env, input, w);
    if s.ufile < 0 {
      assert r.out == s.out + [Say(SetupFailed), Close(Serial)];
      assert r.out[|s.out|..] == [Say(SetupFailed), Close(Serial)];
      AfterFailedSetup(s.out);
    } else {
      var l := Loop(input, w);
      LoopReportsOnly(input, w);
      if l.stop == Pending {
        assert r.out == s.out + l.out + [];
        AfterSetup(s.out, l.out, []);
      } else {
        assert r.out == s.out + l.out + Teardown;
        AfterSetup(s.out, l.out, Teardown);
      }
    }
  }

  /** The device is fully registered before the first record: by then the
      run has declared every capability of the pointer, written the
      descriptor and issued the creation request. */
  lemma RegisteredBeforeRecords(env: SetupEnv, input: seq<ReadResult>, w: WriteOutcomes)
    ensures var t := Main(env, input, w).out;
      forall i :: 0 <= i < |t| && t[i].Emit? ==>
        && DeclaresPointer(t[..i])
        && WriteDescriptor in t[..i]
        && Ioctl(DevCreate) in t[..i]
  {
    var t := Main(env, input, w).out;
    var s := Setup(env);
    MainReports(env, input, w);
    if s.ufile < 0 {
      DeliveredNone(t);
    } else {
      SetupOrdered(env);
      RecordsAfterRegistration(t, s.out);
    }
  }

  /** Records that follow a complete registration follow everything it
      registered. */
  lemma RecordsAfterRegistration(t: seq<Output>, s: seq<Output>)
    requires RecordsAfter(t, s)
    requires DeclaresPointer(s) && WriteDescriptor in s && Ioctl(DevCreate) in s
    ensures forall i :: 0 <= i < |t| && t[i].Emit? ==>
      && DeclaresPointer(t[..i])
      && WriteDescriptor in t[..i]
      && Ioctl(DevCreate) in t[..i]
  {
    forall i | 0 <= i < |t| && t[i].Emit?
      ensures DeclaresPointer(t[..i]) && WriteDescriptor in t[..i] && Ioctl(DevCreate) in t[..i]
    {
      RegisteredWithin(s, t[..i]);
    }
  }

  /** A trace that starts with a complete registration keeps it. */
  lemma RegisteredWithin(s: seq<Output>, u: seq<Output>)
    requires s <= u
    requires DeclaresPointer(s) && WriteDescriptor in s && Ioctl(DevCreate) in s
    ensures DeclaresPointer(u) && WriteDescriptor in u && Ioctl(DevCreate) in u
  {
    var rest := u[|s|..];
    assert u == [] + s + rest;
    DeclaresPointerExtends(s, [], rest);
  }
}

=== FILE: trace.dfy ===
/**
  What the bridge does, in the order it does it: the event records the
  uinput device accepted, the diagnostics it printed, and the calls it made
  on the uinput control file and on its two handles. Diagnostics printed to
  standard output and to standard error are merged in call order.
 */
module Trace {
  import opened LinuxInput
  import opened SerialProtocol

  /** The messages the program prints (their wording is not modelled). */
  datatype Diagnostic =
    | WrongCode(received: byte)   // an unrecognised byte, with its value
    | MotionWriteFailed           // the motion record was not written
    | SyncWriteFailed             // the sync record was not written
    | ReadFailed                  // the serial read returned -1
    | OpenUinputFailed            // the uinput control file did not open
    | DescriptorWriteFailed       // the device descriptor was not written
    | CreateFailed(retcode: int)  // the creation request was refused
    | SetupFailed                 // the program gives up on the device

  /** The two handles the program owns. */
  datatype Handle = Uinput | Serial

  /** The control requests issued on the uinput handle. */
  datatype Request =
    | SetEvBit(evType: EventType)
    | SetRelBit(axis: EventCode)
    | SetKeyBit(key: nat)
    | DevCreate

  datatype Output =
    | Emit(event: InputEvent)   // a record the device accepted
    | Say(diagnostic: Diagnostic)
    | OpenControl               // opening the uinput control file
    | Ioctl(request: Request)
    | WriteDescriptor           // submitting the device descriptor
    | Pause                     // the delay that lets consumers notice the device
    | Close(handle: Handle)

  /** The event records of a trace, in order. */
  function Delivered(t: seq<Output>): seq<InputEvent>
  {
    if |t| == 0 then []
    else (if t[0].Emit? then [t[0].event] else []) + Delivered(t[1..])
  }

  /** The diagnostics of a trace, in order. */
  function Diagnostics(t: seq<Output>): seq<Diagnostic>
  {
    if |t| == 0 then []
    else (if t[0].Say? then [t[0].diagnostic] else []) + Diagnostics(t[1..])
  }

  /** The projections of a one-element trace. */
  lemma OneOutput(o: Output)
    ensures Delivered([o]) == if o.Emit? then [o.event] else []
    ensures Diagnostics([o]) == if o.Say? then [o.diagnostic] else []
  {
    assert [o][1..] == [];
  }

  /** The projections of a two-element trace. */
  lemma TwoOutputs(a: Output, b: Output)
    ensures Delivered([a, b]) == Delivered([a]) + Delivered([b])
    ensures Diagnostics([a, b]) == Diagnostics([a]) + Diagnostics([b])
  {
    assert [a, b] == [a] + [b];
    DeliveredAppend([a], [b]);
    DiagnosticsAppend([a], [b]);
  }

  lemma {:induction false} DeliveredAppend(a: seq<Output>, b: seq<Output>)
    ensures Delivered(a + b) == Delivered(a) + Delivered(b)
    decreases |a|
  {
    if |a| == 0 {
      assert a + b == b;
    } else {
      var t := a + b;
      assert t[0] == a[0];
      assert t[1..] == a[1..] + b;
      DeliveredAppend(a[1..], b);
      assert Delivered(t) == (if t[0].Emit? then [a[0].event] else []) + Delivered(t[1..]);
    }
  }

  lemma {:induction false} DiagnosticsAppend(a: seq<Output>, b: seq<Output>)
    ensures Diagnostics(a + b) == Diagnostics(a) + Diagnostics(b)
    decreases |a|
  {
    if |a| == 0 {
      assert a + b == b;
    } else {
      var t := a + b;
      assert t[0] == a[0];
      assert t[1..] == a[1..] + b;
      DiagnosticsAppend(a[1..], b);
      assert Diagnostics(t) == (if t[0].Say? then [a[0].diagnostic] else []) + Diagnostics(t[1..]);
    }
  }

  /** A trace with no event record delivers nothing. */
  lemma {:induction false} NoRecords(t: seq<Output>)
    requires forall i :: 0 <= i < |t| ==> !t[i].Emit?
    ensures Delivered(t) == []
    decreases |t|
  {
    if |t| > 0 {
      NoRecords(t[1..]);
    }
  }

  /** A trace that delivers nothing holds no event record. */
  lemma {:induction false} DeliveredNone(t: seq<Output>)
    requires Delivered(t) == []
    ensures forall i :: 0 <= i < |t| ==> !t[i].Emit?
    decreases |t|
  {
    if |t| > 0 {
      DeliveredNone(t[1..]);
      assert forall i :: 1 <= i < |t| ==> t[i] == t[1..][i - 1];
    }
  }

  /** A trace with no diagnostic prints nothing. */
  lemma {:induction false} NoDiagnostics(t: seq<Output>)
    requires forall i :: 0 <= i < |t| ==> !t[i].Say?
    ensures Diagnostics(t) == []
    decreases |t|
  {
    if |t| > 0 {
      NoDiagnostics(t[1..]);
    }
  }

  /** Every event record comes after a pause, that is, after the device was
      created and given time to be noticed. */
  predicate RecordsAfterPause(t: seq<Output>) {
    forall i :: 0 <= i < |t| && t[i].Emit? ==> Pause in t[..i]
  }

  /** A trace with no event record has none before the pause. */
  lemma NothingBeforePause(t: seq<Output>)
    requires forall i :: 0 <= i < |t| ==> !t[i].Emit?
    ensures RecordsAfterPause(t)
  {
  }

  /** Every event record comes after all of `p`: the trace up to the
      record starts with `p`. */
  predicate RecordsAfter(t: seq<Output>, p: seq<Output>) {
    forall i :: 0 <= i < |t| && t[i].Emit? ==> p <= t[..i]
  }

  /** A trace with no event record has none before any prefix. */
  lemma NothingBefore(t: seq<Output>, p: seq<Output>)
    requires forall i :: 0 <= i < |t| ==> !t[i].Emit?
    ensures RecordsAfter(t, p)
  {
  }

  /** Every element is an event record or a diagnostic: no control call,
      no close. */
  predicate OnlyReports(t: seq<Output>) {
    forall i :: 0 <= i < |t| ==> t[i].Emit? || t[i].Say?
  }

  lemma OnlyReportsAppend(a: seq<Output>, b: seq<Output>)
    requires OnlyReports(a) && OnlyReports(b)
    ensures OnlyReports(a + b)
  {
  }

  /** A trace of reports is its event records and its diagnostics. */
  lemma {:induction false} ReportsCount(t: seq<Output>)
    requires OnlyReports(t)
    ensures |t| == |Delivered(t)| + |Diagnostics(t)|
    decreases |t|
  {
    if |t| > 0 {
      ReportsCount(t[1..]);
    }
  }

  /** Is the element at `i` an accepted motion record? */
  predicate MotionAt(t: seq<Output>, i: int)
    requires 0 <= i < |t|
  {
    t[i].Emit? && IsMotion(t[i].event)
  }

  /** Every accepted motion record is immediately followed by the sync
      record that completes its frame. */
  predicate FramesPaired(t: seq<Output>) {
    forall i :: 0 <= i < |t| && MotionAt(t, i) ==> i + 1 < |t| && t[i + 1] == Emit(SynReport)
  }

  /** Every accepted motion record is immediately followed either by its
      sync record or by the report that the sync record was not written. */
  predicate MotionsClosed(t: seq<Output>) {
    forall i :: 0 <= i < |t| && MotionAt(t, i) ==>
      i + 1 < |t| && (t[i + 1] == Emit(SynReport) || t[i + 1] == Say(SyncWriteFailed))
  }

  lemma FramesPairedAppend(a: seq<Output>, b: seq<Output>)
    requires FramesPaired(a) && FramesPaired(b)
    ensures FramesPaired(a + b)
  {
    var t := a + b;
    forall i | 0 <= i < |t| && MotionAt(t, i)
      ensures i + 1 < |t| && t[i + 1] == Emit(SynReport)
    {
      if i < |a| {
        assert MotionAt(a, i);
      } else {
        assert MotionAt(b, i - |a|);
      }
    }
  }

  lemma MotionsClosedAppend(a: seq<Output>, b: seq<Output>)
    requires MotionsClosed(a) && MotionsClosed(b)
    ensures MotionsClosed(a + b)
  {
    var t := a + b;
    forall i | 0 <= i < |t| && MotionAt(t, i)
      ensures i + 1 < |t| && (t[i + 1] == Emit(SynReport) || t[i + 1] == Say(SyncWriteFailed))
    {
      if i < |a| {
        assert MotionAt(a, i);
      } else {
        assert MotionAt(b, i - |a|);
      }
    }
  }
}

=== FILE: uinput_setup.dfy ===
/**
  `setup_uinput`: the sequence of calls that registers the virtual pointer
  with the input subsystem. The calls themselves belong to the kernel; here
  they are outputs in a trace. The answers the program looks at (the
  descriptor, the descriptor write's success, the creation result) are
  inputs; the declarations' answers are ignored, as in the program.
 */
module UinputSetup {
  import opened LinuxInput
  import opened Trace

  /** What `open(2)` returns: a descriptor, or -1 on failure. */
  type OpenResult = x: int | -1 <= x

  /** The kernel's answers during setup: the descriptor `open` returned,
      whether the descriptor write was accepted, and what the creation
      request returned. */
  datatype SetupEnv = SetupEnv(openFd: OpenResult, descriptorAccepted: bool, createRet: int)

  /** The calls made and messages printed, and the handle returned
      (a descriptor, or -1 for failure). */
  datatype SetupResult = SetupResult(out: seq<Output>, ufile: int)

  /** The number of key codes declared one by one. */
  const KEY_CODE_COUNT: nat := 256

  /** The key-bit declarations for codes `0 .. n-1`, in increasing order. */
  function KeyBits(n: nat): (r: seq<Output>)
    ensures |r| == n
    ensures forall k :: 0 <= k < n ==> r[k] == Ioctl(SetKeyBit(k))
  {
    seq(n, k requires 0 <= k => Ioctl(SetKeyBit(k)))
  }

  /** Every capability the device declares, in the order it declares them. */
  function Declarations(): seq<Output> {
    [Ioctl(SetEvBit(EV_KEY)), Ioctl(SetEvBit(EV_REL)), Ioctl(SetRelBit(REL_X)), Ioctl(SetRelBit(REL_Y))]
    + KeyBits(KEY_CODE_COUNT)
    + [Ioctl(SetKeyBit(BTN_MOUSE))]
  }

  predicate IsDeclaration(o: Output) {
    o.Ioctl? && !o.request.DevCreate?
  }

  /** The trace declares key and relative events, both relative axes, every
      key code below 256 and the mouse button. */
  predicate DeclaresPointer(t: seq<Output>) {
    && Ioctl(SetEvBit(EV_KEY)) in t
    && Ioctl(SetEvBit(EV_REL)) in t
    && Ioctl(SetRelBit(REL_X)) in t
    && Ioctl(SetRelBit(REL_Y)) in t
    && Ioctl(SetKeyBit(BTN_MOUSE)) in t
    && forall k :: 0 <= k < KEY_CODE_COUNT ==> Ioctl(SetKeyBit(k)) in t
  }

  /** Registration order: every declaration comes before every descriptor
      write, every descriptor write before every creation request, and no
      creation request is made without a descriptor write before it. */
  predicate RegistrationOrdered(t: seq<Output>) {
    && (forall i, j :: 0 <= i < |t| && 0 <= j < |t| && IsDeclaration(t[i]) && t[j] == WriteDescriptor ==> i < j)
    && (forall i, j :: 0 <= i < |t| && 0 <= j < |t| && t[i] == WriteDescriptor && t[j] == Ioctl(DevCreate) ==> i < j)
    && (forall j :: 0 <= j < |t| && t[j] == Ioctl(DevCreate) ==> WriteDescriptor in t[..j])
  }

  lemma DeclarationsDeclarePointer()
    ensures DeclaresPointer(Declarations())
    ensures forall i :: 0 <= i < |Declarations()| ==> IsDeclaration(Declarations()[i])
  {
    var d := Declarations();
    var keys := KeyBits(KEY_CODE_COUNT);
    assert d[0] == Ioctl(SetEvBit(EV_KEY));
    assert d[1] == Ioctl(SetEvBit(EV_REL));
    assert d[2] == Ioctl(SetRelBit(REL_X));
    assert d[3] == Ioctl(SetRelBit(REL_Y));
    assert d[|d| - 1] == Ioctl(SetKeyBit(BTN_MOUSE));
    forall k | 0 <= k < KEY_CODE_COUNT
      ensures Ioctl(SetKeyBit(k)) in d
    {
      assert d[4 + k] == keys[k];
    }
  }

  /** The calls made before the descriptor write is judged: the open, every
      declaration, and the descriptor write itself. */
  function Declared(): seq<Output> {
    [OpenControl] + Declarations() + [WriteDescriptor]
  }

  /** A call made before the descriptor write is judged. */
  predicate Preliminary(o: Output) {
    o.OpenControl? || o.WriteDescriptor? || IsDeclaration(o)
  }

  /** Before the descriptor write is judged, registration only opens,
      declares and writes the descriptor. */
  lemma DeclaredShape()
    ensures |Declared()| > 0 && Declared()[0] == OpenControl
    ensures forall i :: 0 <= i < |Declared()| ==> Preliminary(Declared()[i])
  {
    var d := Declarations();
    var p := Declared();
    DeclarationsDeclarePointer();
    forall i | 0 <= i < |p|
      ensures Preliminary(p[i])
    {
      if 0 < i < |p| - 1 {
        assert p[i] == d[i - 1];
      }
    }
  }

  /** Preliminary calls print nothing, write no record, close nothing,
      create nothing and do not pause. */
  lemma PreliminaryQuiet(p: seq<Output>)
    requires forall i :: 0 <= i < |p| ==> Preliminary(p[i])
    ensures forall i :: 0 <= i < |p| ==> !p[i].Say? && !p[i].Emit? && !p[i].Close?
    ensures Ioctl(DevCreate) !in p && Pause !in p
    ensures Diagnostics(p) == []
  {
    NoDiagnostics(p);
  }

  /** What registration does once the descriptor write is judged: report
      a refused write; otherwise create the device, then report a failed
      creation or pause. */
  function Outcome(written: bool, createRet: int): (tail: seq<Output>)
    ensures |tail| > 0
    ensures Ioctl(DevCreate) in tail <==> written
    ensures !written ==> Say(DescriptorWriteFailed) in tail
    ensures written && createRet != 0 ==> Say(CreateFailed(createRet)) in tail
    ensures Pause in tail <==> written && createRet == 0
    ensures written && createRet == 0 ==> tail[|tail| - 1] == Pause
    ensures forall i :: 0 <= i < |tail| ==> !tail[i].Emit? && !tail[i].Close?
    ensures Say(OpenUinputFailed) !in tail
    ensures forall i :: 0 <= i < |tail| ==> !Preliminary(tail[i])
  {
    if !written then
      [Say(DescriptorWriteFailed)]
    else if createRet != 0 then
      [Ioctl(DevCreate), Say(CreateFailed(createRet))]
    else
      [Ioctl(DevCreate), Pause]
  }

  /** Each failure is reported exactly once, and success reports nothing. */
  lemma OutcomeDiagnostics(written: bool, createRet: int)
    ensures Diagnostics(Outcome(written, createRet))
         == if !written then [DescriptorWriteFailed]
            else if createRet != 0 then [CreateFailed(createRet)]
            else []
  {
    if !written {
      OneOutput(Say(DescriptorWriteFailed));
    } else if createRet != 0 {
      TwoOutputs(Ioctl(DevCreate), Say(CreateFailed(createRet)));
      OneOutput(Ioctl(DevCreate));
      OneOutput(Say(CreateFailed(createRet)));
    } else {
      TwoOutputs(Ioctl(DevCreate), Pause);
      OneOutput(Ioctl(DevCreate));
      OneOutput(Pause);
    }
  }

  /** Preliminary calls in front of a trace add no diagnostic, no creation
      request, no pause, no record and no close. */
  lemma AfterPreliminary(p: seq<Output>, tail: seq<Output>)
    requires forall i :: 0 <= i < |p| ==> Preliminary(p[i])
    requires forall i :: 0 <= i < |tail| ==> !tail[i].Emit? && !tail[i].Close?
    ensures Diagnostics(p + tail) == Diagnostics(tail)
    ensures Ioctl(DevCreate) in p + tail <==> Ioctl(DevCreate) in tail
    ensures Pause in p + tail <==> Pause in tail
    ensures forall d :: Say(d) in p + tail <==> Say(d) in tail
    ensures forall i :: 0 <= i < |p + tail| ==> !(p + tail)[i].Emit? && !(p + tail)[i].Close?
  {
    PreliminaryQuiet(p);
    DiagnosticsAppend(p, tail);
  }

  /** Everything after the open succeeded: declare, submit the descriptor,
      create, pause. `written` is whether the descriptor write succeeded. */
  function Register(fd: int, written: bool, createRet: int): (s: SetupResult)
    ensures s.ufile == (if written && createRet == 0 then fd else -1)
    ensures !written ==> Ioctl(DevCreate) !in s.out && Say(DescriptorWriteFailed) in s.out
    ensures written ==> Ioctl(DevCreate) in s.out
    ensures written && createRet != 0 ==> Say(CreateFailed(createRet)) in s.out
    ensures Pause in s.out <==> written && createRet == 0
    ensures |s.out| > 0 && s.out[0] == OpenControl
    ensures written && createRet == 0 ==> s.out[|s.out| - 1] == Pause
    ensures forall i :: 0 <= i < |s.out| ==> !s.out[i].Emit? && !s.out[i].Close?
    ensures Say(OpenUinputFailed) !in s.out
  {
    DeclaredShape();
    AfterPreliminary(Declared(), Outcome(written, createRet));
    SetupResult(Declared() + Outcome(written, createRet), if written && createRet == 0 then fd else -1)
  }

  /** Registration prints exactly one report for the step that failed,
      and none when the device is created. */
  lemma RegisterReports(fd: int, written: bool, createRet: int)
    ensures Diagnostics(Register(fd, written, createRet).out)
         == if !written then [DescriptorWriteFailed]
            else if createRet != 0 then [CreateFailed(createRet)]
            else []
  {
    DeclaredShape();
    OutcomeDiagnostics(written, createRet);
    AfterPreliminary(Declared(), Outcome(written, createRet));
  }

  /** A trace cut at its only descriptor write, with every creation request
      after the cut and every declaration before it, is in registration
      order. */
  lemma OrderedAroundDescriptor(before: seq<Output>, after: seq<Output>)
    requires forall i :: 0 <= i < |before| ==> before[i] != WriteDescriptor && before[i] != Ioctl(DevCreate)
    requires forall i :: 0 <= i < |after| ==> after[i] != WriteDescriptor && !IsDeclaration(after[i])
    ensures RegistrationOrdered(before + [WriteDescriptor] + after)
  {
    var t := before + [WriteDescriptor] + after;
    var cut := |before|;
    assert forall j :: 0 <= j < |t| && t[j] == WriteDescriptor ==> j == cut;
    assert forall i :: 0 <= i < |t| && IsDeclaration(t[i]) ==> i < cut;
    assert forall j :: 0 <= j < |t| && t[j] == Ioctl(DevCreate) ==> j > cut;
    forall j | 0 <= j < |t| && t[j] == Ioctl(DevCreate)
      ensures WriteDescriptor in t[..j]
    {
      assert t[..j][cut] == WriteDescriptor;
    }
  }

  /** Opening, declaring `d`, writing the descriptor and then doing none of
      those again is registration order. */
  lemma DeclaredThenOrdered(d: seq<Output>, tail: seq<Output>)
    requires forall i :: 0 <= i < |d| ==> IsDeclaration(d[i])
    requires forall i :: 0 <= i < |tail| ==> !Preliminary(tail[i])
    ensures RegistrationOrdered([OpenControl] + d + [WriteDescriptor] + tail)
  {
    var before := [OpenControl] + d;
    forall i | 0 <= i < |before|
      ensures before[i] != WriteDescriptor && before[i] != Ioctl(DevCreate)
    {
      if i > 0 {
        assert before[i] == d[i - 1];
      }
    }
    OrderedAroundDescriptor(before, tail);
  }

  lemma RegisterOrdered(fd: int, written: bool, createRet: int)
    ensures RegistrationOrdered(Register(fd, written, createRet).out)
    ensures DeclaresPointer(Register(fd, written, createRet).out)
    ensures WriteDescriptor in Register(fd, written, createRet).out
  {
    var d := Declarations();
    var tail := Outcome(written, createRet);
    assert Register(fd, written, createRet).out == [OpenControl] + d + [WriteDescriptor] + tail;
    DeclarationsDeclarePointer();
    DeclaredThenOrdered(d, tail);
    DeclaresPointerExtends(d, [OpenControl], [WriteDescriptor] + tail);
  }

  /** Declarations survive being embedded in a longer trace. */
  lemma DeclaresPointerExtends(d: seq<Output>, pre: seq<Output>, post: seq<Output>)
    requires DeclaresPointer(d)
    ensures DeclaresPointer(pre + d + post)
  {
    var t := pre + d + post;
    forall o | o in d
      ensures o in t
    {
      var m :| 0 <= m < |d| && d[m] == o;
      assert t[|pre| + m] == o;
    }
  }

  /** Setup with the open check the call's contract calls for: a descriptor
      of -1 is the failure, and any other descriptor (0 included) is used. */
  function Setup(env: SetupEnv): (s: SetupResult)
    ensures s.ufile >= 0 <==> env.openFd >= 0 && env.descriptorAccepted && env.createRet == 0
    ensures s.ufile >= 0 ==> s.ufile == env.openFd
    ensures s.ufile < 0 ==> s.ufile == -1
    ensures Say(OpenUinputFailed) in s.out <==> env.openFd == -1
    ensures env.openFd == -1 ==> forall i :: 0 <= i < |s.out| ==> !s.out[i].Ioctl?
    ensures s.ufile >= 0 ==> Ioctl(DevCreate) in s.out && s.out[|s.out| - 1] == Pause
    ensures env.openFd >= 0 && !env.descriptorAccepted ==>
      Ioctl(DevCreate) !in s.out && Say(DescriptorWriteFailed) in s.out
    ensures env.openFd >= 0 && env.descriptorAccepted && env.createRet != 0 ==>
      Ioctl(DevCreate) in s.out && Say(CreateFailed(env.createRet)) in s.out
    ensures Pause in s.out <==> s.ufile >= 0
    ensures forall i :: 0 <= i < |s.out| ==> !s.out[i].Emit? && !s.out[i].Close?
    ensures |s.out| > 0 && s.out[0] == OpenControl
  {
    if env.openFd == -1 then
      SetupResult([OpenControl, Say(OpenUinputFailed)], -1)
    else
      Register(env.openFd, env.descriptorAccepted, env.createRet)
  }

  /** Setup prints exactly one report for the step that failed, the open
      included, and none when the device is ready. */
  lemma SetupReports(env: SetupEnv)
    ensures Diagnostics(Setup(env).out)
         == if env.openFd == -1 then [OpenUinputFailed]
            else if !env.descriptorAccepted then [DescriptorWriteFailed]
            else if env.createRet != 0 then [CreateFailed(env.createRet)]
            else []
  {
    if env.openFd == -1 {
      TwoOutputs(OpenControl, Say(OpenUinputFailed));
      OneOutput(OpenControl);
      OneOutput(Say(OpenUinputFailed));
    } else {
      RegisterReports(env.openFd, env.descriptorAccepted, env.createRet);
    }
  }

  /** Whatever the kernel answers, the calls setup makes come in
      registration order, and once past the open every capability is
      declared and the descriptor is written. */
  lemma SetupOrdered(env: SetupEnv)
    ensures RegistrationOrdered(Setup(env).out)
    ensures env.openFd >= 0 ==> DeclaresPointer(Setup(env).out)
    ensures env.openFd >= 0 ==> WriteDescriptor in Setup(env).out
  {
    if env.openFd >= 0 {
      RegisterOrdered(env.openFd, env.descriptorAccepted, env.createRet);
    }
  }

  /** Setup as written: the open is judged failed only when it returned 0,
      and a write on descriptor -1 is refused by the kernel. */
  function SetupAsWritten(env: SetupEnv): (s: SetupResult)
    ensures env.openFd == 0 ==> s.ufile == -1 && Say(OpenUinputFailed) in s.out
    ensures env.openFd != 0 ==> Say(OpenUinputFailed) !in s.out
  {
    if env.openFd == 0 then
      SetupResult([OpenControl, Say(OpenUinputFailed)], -1)
    else
      Register(env.openFd, env.descriptorAccepted && env.openFd >= 0, env.createRet)
  }

  /** A failed open (-1) slips past the check as written: the program issues
      its control requests on the invalid descriptor and blames the
      descriptor write instead of the open. */
  lemma AsWrittenMissesOpenFailure(accepted: bool, createRet: int)
    ensures var s := SetupAsWritten(SetupEnv(-1, accepted, createRet));
      && s.ufile == -1
      && Ioctl(SetEvBit(EV_KEY)) in s.out
      && Say(DescriptorWriteFailed) in s.out
      && Say(OpenUinputFailed) !in s.out
    ensures var s := Setup(SetupEnv(-1, accepted, createRet));
      && Say(OpenUinputFailed) in s.out
      && Ioctl(SetEvBit(EV_KEY)) !in s.out
  {
    var s := SetupAsWritten(SetupEnv(-1, accepted, createRet));
    assert s.out[1] == Ioctl(SetEvBit(EV_KEY));
    assert s.out[|s.out| - 1] == Say(DescriptorWriteFailed);
  }

  /** The two checks differ only on descriptors -1 and 0. */
  lemma AsWrittenAgreesElsewhere(env: SetupEnv)
    requires env.openFd > 0
    ensures SetupAsWritten(env) == Setup(env)
  {
  }

  /** A successful open that returned descriptor 0 is rejected as written,
      although the kernel accepts every later call; the corrected check
      registers the device on descriptor 0. Within the whole program this
      cannot happen: the serial handle is opened first and holds the lowest
      free descriptor. */
  lemma AsWrittenRejectsDescriptorZero()
    ensures SetupAsWritten(SetupEnv(0, true, 0)).ufile == -1
    ensures Setup(SetupEnv(0, true, 0)).ufile == 0
  {
  }
}
